=== FILE: README.md ===
# thread_pool: a verified model of the pool's bookkeeping

This project models the self-scaling worker pool of `thread_pool.c`, a small C library that lends
idle worker threads to jobs and scales with demand:
- the idle workers sit on a LIFO free-list (`head` on the pool, `next` on each worker);
- `StartWork` hands a job to the head idle worker and wakes it;
- after each job, a worker may ask for one extra thread on sustained demand, go back on the
  idle list, or retire when the pool is above its minimum.

The model is a sequential state machine:
- Each thread is a worker id, and every region that the C code runs under a lock is one atomic
  step. Three steps merge neighbouring regions:
  - `StartWork` joins the pool-locked `GetWorker` call (lines 154-156) with the worker-locked
    wake-up (lines 138-140);
  - `FinishJob` joins the unlocked line 71 with the pool-locked lines 73-98;
  - `WorkerStart` joins the unlocked `InitWorker` call (line 52) with the pool-locked lines 54-60.

  These merges are harmless. The fields touched outside the pool lock (`wake_up`, `func`, and
  the whole record `InitWorker` fills in) belong to a worker that is not on the idle list, so no
  other thread reads them at that time.
- Time is a parameter `now`.
- A created thread appears as a pending start (`startingThreadNum`). It becomes a counted,
  idle worker when it runs the first locked region of `DoProcess`.

Files:
- `types.dfy` (module `Types`): the records of `thread_pool.h`. `Worker` holds `next`,
  `wakeUp`, `sleepStartTime`, `func` and `arg`. `FreshWorker` is the state `InitWorker` gives a
  worker.
- `policy.dfy` (module `Policy`): the macros `WaitWorkerTimeout`, `NoThreadInPool` and
  `CanCreateThread`, plus `WorkerIdleTimeout` and the two post-job decisions (grow, retire), as
  pure functions of the pool's fields. The macros, `WorkerIdleTimeout` and the as-written growth
  test `ShouldGrowAsWritten` are plain definitions. What they mean for the pool is stated by
  lemmas: `GuardsCompared` and `TimeoutsMonotone` here, and `NoThreadMeansAllBusy`,
  `EmptyingRestartsWait` and `JustIdledHeadNotTimedOut` in `PoolModel`.
- `pool_model.dfy` (module `PoolModel`): the abstract pool, its invariant `Inv` and one step
  function per locked region. It also holds the lemmas:
  - the free-list stays a well-linked list;
  - push and pop are inverse;
  - the list reachable from `head` through `next` is exactly the idle stack;
  - every step keeps `Inv`.
- `pool_trace.dfy` (module `PoolTrace`): arbitrary interleavings of submissions, thread starts,
  wake-ups and finished jobs. Every reachable state keeps the thread-count bounds. The module
  also holds two concrete runs: one at capacity, and the growth race described under Findings.
- `thread_pool.dfy` (module `ThreadPoolImpl`): the class `ThreadPool`, updated in place. It has
  the fields of `struct ThreadPool`, the workers' records by id, and a ghost `idle` stack. Its
  methods come in three kinds:
  - The steps (`GetWorker`, `WakeupWorkerThread`, `StartWork`, `WorkerStart`, `WorkerWake`,
    `FinishJob`) and the constructor are specified by the `PoolModel` function they implement
    (`Abstract() == PoolModel.X(old(Abstract()), ...)`), and they keep `Valid()`.
  - `PushWorker`, `PopWorker`, `WorkerEnter` and `RetireOrIdle` are helpers that run inside a
    step, while `Valid()` is temporarily broken (a worker is counted but not yet listed, or off
    the list but not yet retired). Each is specified by its `PoolModel` function too. Instead of
    `Valid()`, each ensures only the part of it that still holds: `ListValid()` (the free-list
    is well linked) or, for `RetireOrIdle`, that `head` is the top of the idle stack.
  - `CreateOneThread` and `InitWorker` are specified by their own field updates: one more
    pending start, and a worker record set to `FreshWorker`. Neither is a step of its own.

`Inv` states these invariants:
- the idle list has no duplicates;
- each idle worker's `next` is its successor, and a busy worker's `next` is NULL;
- idle workers hold no job and are asleep, while busy workers hold a job;
- `min <= cur + starting <= max`;
- `cur` equals the number of live workers.

Where the code is defective, the model follows the evident intent:
- `PushWorker` sets `head` to NULL instead of the worker (line 24). The model prepends.
- `GetWorker` pops without checking for an empty list (lines 122-123). The model returns "no
  worker" after refreshing `last_empty_time`, which makes the -2 path of `StartWork` reachable.
- `WorkerIdleTimeout` has a typo (`returtn`).
- `DoProcess` calls the misspelled `CreateOneTrhead`, locks the undeclared `pool_mutex`, and
  passes the worker struct to `PushWorker` instead of a pointer.
- `CreateThreadPool` is missing a semicolon.
- The growth test of line 77 uses `CanCreateThread` (line 6, `cur < max`). That test ignores
  threads that have been created but have not yet counted themselves in. The model's guard is
  `cur + starting < max` (see Findings).

These are read as the obvious `return`, `CreateOneThread`, `pool->mutex`, `&worker` and a
completed declaration.

Three further points about the code's behaviour, which the model follows:
- `StartWork` never creates a thread; it returns -2 when nobody is idle.
- Retirement looks at the sleep time of the worker at the head of the idle list, not at the
  retiring worker's own sleep time. The retiring worker is a busy one that has just finished
  its job.
- The new thread counts itself in (`cur_thread_num += 1` at line 55); the count is not reserved
  when the thread is created.

## Model

| member | source | states |
|---|---|---|
| Policy.CanReserveThread | thread_pool.c:77-80 | the corrected guard: true exactly when one more thread fits beside the counted and the pending ones (`cur + starting + 1 <= max`); it implies `CanCreateThread`, and equals it when no start is pending |
| Policy.ShouldGrow | thread_pool.c:74-80 | growth is granted iff the idle list is empty, `now - last_empty_time > 1` and the counted plus starting threads are below max; a granted growth leaves room for the new thread (`cur + starting + 1 <= max`) |
| Policy.GuardsCompared | thread_pool.c:77-80 | the corrected growth test only refuses where the test as written (`WaitWorkerTimeout`, `NoThreadInPool`, `CanCreateThread` of lines 4-6) grants; the two agree whenever no start is pending; and they differ exactly when the list is empty, the wait has passed and `cur < max <= cur + starting`, i.e. pending starts fill the room `CanCreateThread` still sees |
| Policy.TimeoutsMonotone | thread_pool.c:33-44 | `WorkerIdleTimeout`, and `WaitWorkerTimeout` of line 4, are monotone in time: once a timeout holds, it holds at every later time |
| Policy.ShouldRetire | thread_pool.c:82-95 | retirement is chosen iff the idle list is non-empty, `cur > min` and the head's `sleep_start_time + 1 < now`; then `cur - 1 >= min` |
| Policy.GrowAndRetireExclusive | thread_pool.c:77-95 | a worker never both asks for a thread and retires after the same job |
| PoolModel.PushWorker | thread_pool.c:21-25 | the corrected push: the worker is prepended to the idle stack and becomes `head`; its `next` becomes the old head and its other fields are kept; every other worker and every other pool field is unchanged |
| PoolModel.PopWorker | thread_pool.c:27-31 | the head leaves the idle stack; its `next` becomes NULL and its other fields are kept; the set of workers, every other worker's record and every other pool field are unchanged |
| PoolModel.PushKeepsLinked | thread_pool.c:21-25 | pushing a busy worker keeps the free-list a duplicate-free list correctly linked by `next` |
| PoolModel.PopKeepsLinked | thread_pool.c:27-31 | popping keeps the list well linked, and the new `head` is the old head's `next` |
| PoolModel.PushPopRoundTrip | thread_pool.c:21-31 | after a push the worker is `head`, and a pop then restores the pool exactly |
| PoolModel.PopPushRoundTrip | thread_pool.c:21-31 | popping the head and pushing it back restores the pool exactly (LIFO reuse) |
| PoolModel.ChainIsIdle | thread_pool.h:8-33 | the list reached from `head` by following `next` is exactly the idle stack |
| PoolModel.PushKeepsReachable | thread_pool.c:21-25 | after the corrected push, following `next` from `head` visits the pushed worker and then every previously idle worker |
| PoolModel.PushLinksAsWritten | thread_pool.c:21-25 | as written, the pushed worker's `next` is the old head and no other worker changes (`head` then becomes NULL) |
| PoolModel.PushAsWrittenLosesList | thread_pool.c:21-25 | as written, after a push the pushed worker still leads to the whole idle list, but nothing is reachable from `head` |
| PoolModel.GetWorker | thread_pool.c:113-134 | hands out the current head (none on an empty list); the list loses exactly that worker; `last_empty_time` becomes `now` iff the list was empty before or after the pop, otherwise it is unchanged; the handed-out worker gets `next` NULL and the given `func`/`arg`, its other fields kept; every other worker's record is unchanged; thread counts and bounds unchanged |
| PoolModel.GetWorkerKeepsInv | thread_pool.c:113-134 | GetWorker keeps the pool invariant, and the worker it returns is no longer on the idle list |
| PoolModel.WakeupWorkerThread | thread_pool.c:136-143 | sets the worker's `wake_up` to 1; nothing else in the pool changes |
| PoolModel.WakeupKeepsInv | thread_pool.c:136-143 | waking a worker taken off the list keeps the invariant |
| PoolModel.StartWork | thread_pool.c:145-166 | NULL `func`: returns -1 and changes nothing; empty list: returns -2 and only `last_empty_time` changes; otherwise returns 0 with the former head off the list, unlinked, woken and holding `func`/`arg`, `last_empty_time` set to `now` iff the list is now empty, and every other worker's record unchanged; never creates or counts a thread |
| PoolModel.StartWorkKeepsInv | thread_pool.c:145-166 | every StartWork outcome keeps the invariant |
| PoolModel.WorkerEnter | thread_pool.c:49-55 | a starting thread's worker is initialised as by InitWorker (NULL `next`, `wake_up` 0, no job, `sleep_start_time` 0) and counted: `cur + 1`, one fewer pending start; the idle list, every other worker, `last_empty_time` and the bounds are unchanged |
| PoolModel.WorkerEnterLinked | thread_pool.c:49-55 | the new worker's id is fresh and the free-list stays well linked |
| PoolModel.SetSleepStart | thread_pool.c:59 | only the worker's `sleep_start_time` changes, to `now`; every other worker and pool field is unchanged |
| PoolModel.WorkerStart | thread_pool.c:47-60 | a started thread gets a fresh id, adds exactly 1 to `cur_thread_num` and takes one pending start; it becomes the new head with a fresh record whose `next` is the old head and whose `sleep_start_time` is `now`; every other worker, `last_empty_time` and the bounds are unchanged |
| PoolModel.WorkerStartKeepsInv | thread_pool.c:47-60 | a thread start keeps the invariant |
| PoolModel.WorkerWake | thread_pool.c:62-68 | the woken worker's `wake_up` is reset to 0 and its job is kept for running; its other fields, every other worker and every pool field are unchanged |
| PoolModel.WorkerWakeKeepsInv | thread_pool.c:62-68 | waking keeps the invariant and leaves the worker running its job |
| PoolModel.ClearJob | thread_pool.c:70-71 | the worker's `func` becomes NULL, its other fields are kept, and nothing else in the pool changes |
| PoolModel.ClearJobKeepsLinked | thread_pool.c:70-71 | clearing `func` leaves the free-list links intact |
| PoolModel.FinishJob | thread_pool.c:70-98 | one pending start is added iff the list is empty, `now - last_empty_time > 1` and `cur + starting < max`; the worker retires iff someone is idle, `cur > min` and the head's `sleep_start_time + 1 < now`, and then `cur` drops by exactly 1; otherwise it is the new head with no job, `next` the old head and `sleep_start_time = now`, its other fields kept; `cur + starting` never passes max nor drops below min; `last_empty_time`, the bounds and every other worker's record are unchanged; the set of workers loses the worker when it retires and is otherwise unchanged, so no worker record is created |
| PoolModel.FinishJobAsWritten | thread_pool.c:77-80 | as written, a start is requested iff the list is empty, `now - last_empty_time > 1` and `cur < max`, whatever starts are pending; in every other respect the result is that of `FinishJob` |
| PoolModel.RetireOrIdle | thread_pool.c:82-98 | the worker retires iff someone is idle, `cur > min` and the head's `sleep_start_time + 1 < now`, and then only `cur` drops by 1 and the worker's record goes; otherwise it is pushed back with `next` the old head and `sleep_start_time = now`, and nothing else changes, the set of workers included; every other worker stays, unchanged |
| PoolModel.FinishJobKeepsInv | thread_pool.c:70-98 | the post-job step keeps the invariant |
| PoolModel.CreateThreadPool | thread_pool.c:168-196 | a new pool has an empty idle list, no workers, `cur_thread_num = 0`, `last_empty_time = now`, the given min/max, exactly `min` thread starts requested, and satisfies the invariant |
| PoolModel.IdleHoldsNoJob | thread_pool.c:58-71 | a worker on the idle list is live and holds no job (a consequence of `Inv`) |
| PoolModel.NoThreadMeansAllBusy | thread_pool.c:5 | on a pool that keeps `Inv`, `NoThreadInPool` (which reads only `head`) holds exactly when every live worker holds a job |
| PoolModel.EmptyingRestartsWait | thread_pool.c:4 | when `GetWorker` at `now` finds or leaves the list empty, `WaitWorkerTimeout` later holds exactly once more than one unit has passed since `now`; when the list stays non-empty, `last_empty_time` is unchanged |
| PoolModel.JustIdledHeadNotTimedOut | thread_pool.c:33-44 | a worker that goes back on the list at `now` becomes the head that `WorkerIdleTimeout` reads: at `now` it has not timed out, and later it times out exactly once more than one unit has passed |
| PoolModel.JobHandOff | thread_pool.c:130-143 | StartWork gives the head exactly the submitted `func`/`arg` and wakes it (`wake_up` 1); the worker resets `wake_up` to 0 before running and sets `func` to NULL afterwards, keeping `arg` |
| PoolTrace.Step | thread_pool.c:47-166 | any one atomic step of a submitter or a worker keeps the invariant and the bounds |
| PoolTrace.Run | thread_pool.c:47-166 | any interleaving of steps keeps the invariant |
| PoolTrace.ReachableBounds | thread_pool.c:77-98 | from CreateThreadPool, every reachable state has `min <= cur + starting <= max`, `min <= cur <= max` once no start is pending, `cur` equal to the number of live workers, and no idle worker holding a job |
| PoolTrace.TwoWorkersThenAtCapacity | thread_pool.c:145-166 | with min = max = 2 and both threads started, two submissions return 0 and a third returns -2 without creating a thread |
| PoolTrace.OneBusyWorker | thread_pool.c:168-196 | from `CreateThreadPool(1, 2)` at time `t0`, the one thread starts and is handed a job: nobody is idle, worker 0 is dispatched, `cur = 1`, no start pending, `last_empty_time = t0` |
| PoolTrace.FinishAlone | thread_pool.c:62-98 | the only worker wakes and finishes its job more than one unit after the list was last found empty: it goes back on the list, and one start is requested iff the guard (as written: `1 < max`; corrected: `1 + starting < max`) lets it |
| PoolTrace.FinishThenResubmit | thread_pool.c:62-166 | as `FinishAlone`, then a new job is handed to the same worker: the list is empty again and `last_empty_time` is the finishing time |
| PoolTrace.StartBoth | thread_pool.c:47-60 | two pending starts beside worker 0 both run: `cur_thread_num` grows by 2, nothing is pending, and workers 0, 1 and 2 are live |
| PoolTrace.GrowthOvershootAsWritten | thread_pool.c:77-80 | with the guard as written, the interleaving from `CreateThreadPool(1, 2)` at time `t0` (finishes at `t0 + 2` and `t0 + 4`) leaves two starts pending beside one counted thread, and once both start `cur_thread_num = 3 > max = 2`; the result holds the state after the second finish and the state after both starts |
| PoolTrace.GrowthRaceCorrected | thread_pool.c:77-80 | the same interleaving with the corrected guard requests only one start, and once it has started the pool holds `cur_thread_num = 2 = max` with nothing pending |
| ThreadPoolImpl.ThreadPool.constructor | thread_pool.c:168-196 | CreateThreadPool: sets up the fields and counts down `min` thread creations in a loop; the result is `PoolModel.CreateThreadPool` and is valid |
| ThreadPoolImpl.ThreadPool.CreateOneThread | thread_pool.c:107-111 | requests one thread: the pending starts grow by exactly 1 and nothing else changes |
| ThreadPoolImpl.ThreadPool.InitWorker | thread_pool.c:8-19 | the worker's record becomes `FreshWorker` and nothing else changes |
| ThreadPoolImpl.ThreadPool.PushWorker | thread_pool.c:21-25 | in place, exactly `PoolModel.PushWorker`: the worker becomes `head` and its `next` the old head; the list stays well linked |
| ThreadPoolImpl.ThreadPool.PopWorker | thread_pool.c:27-31 | in place, exactly `PoolModel.PopWorker`: `head` becomes the old head's `next`, and the popped worker's `next` becomes NULL; the list stays well linked |
| ThreadPoolImpl.ThreadPool.GetWorker | thread_pool.c:113-134 | in place, exactly `PoolModel.GetWorker`; a returned worker is off the idle list |
| ThreadPoolImpl.ThreadPool.WakeupWorkerThread | thread_pool.c:136-143 | in place, exactly `PoolModel.WakeupWorkerThread`; keeps `Valid()` |
| ThreadPoolImpl.ThreadPool.StartWork | thread_pool.c:145-166 | in place, the result code and new state are exactly `PoolModel.StartWork`; keeps `Valid()` |
| ThreadPoolImpl.ThreadPool.WorkerEnter | thread_pool.c:49-55 | in place, exactly `PoolModel.WorkerEnter`, with a fresh worker that is not on the idle list |
| ThreadPoolImpl.ThreadPool.WorkerStart | thread_pool.c:47-60 | in place, exactly `PoolModel.WorkerStart`; keeps `Valid()` |
| ThreadPoolImpl.ThreadPool.WorkerWake | thread_pool.c:62-68 | in place, exactly `PoolModel.WorkerWake`; the worker is then running |
| ThreadPoolImpl.ThreadPool.FinishJob | thread_pool.c:70-98 | in place, exactly `PoolModel.FinishJob`; keeps `Valid()` |
| ThreadPoolImpl.ThreadPool.RetireOrIdle | thread_pool.c:82-98 | in place, exactly `PoolModel.RetireOrIdle`, and `head` remains the top of the idle stack |

## Left out

- Locks, condition variables and thread ids are left out: the `pthread_mutex_*`, `pthread_cond_*`, `pthread_self`, `pthread_exit` calls and the `mutex`, `wake` and `pid` fields. Each locked region is one atomic step, so mutual exclusion between concurrent submitters and liveness (a woken worker eventually runs) cannot be stated.
- The blocking wait loop (lines 63-66) is left out. A worker passes it only when its flag is 1, so `WorkerWake` is enabled only for a dispatched worker.
- `DoProcess`'s `while (true)` loop is not a Dafny loop. Its body blocks on other threads, so it is split into the steps `WorkerStart`, `WorkerWake` and `FinishJob`. The `continue` and `break` paths are the two branches of `RetireOrIdle`.
- `time(NULL)` is the parameter `now`. There is no clock.
- `worker.func(worker.arg)` (line 70) is a foreign call and is treated as having no effect on the pool.
- `malloc` failure (line 172) is left out.
- Failure of `pthread_create` is left out: both `exit(0)` at line 191 and the ignored return code in `DoProcess` are dropped, and every creation request succeeds.
- PoolModel.CreateThreadPool: requires `min <= max`, because the bounds are validated by the caller. The C function does not check, and with `min > max` it would start `min` threads.
- ThreadPoolImpl.ThreadPool.constructor: requires `min <= max`, for the same reason.
- ThreadPoolImpl.ThreadPool.GetWorker: requires a non-NULL `func`. Its only caller, `StartWork`, has already returned -1 for NULL.
- ThreadPoolImpl.ThreadPool.PopWorker: requires that the worker is `head`, as its one caller ensures.
- ThreadPoolImpl.ThreadPool.PushWorker: requires that the worker is not already idle. Pushing an idle worker again would make the list cyclic, and no caller does so.
- ThreadPoolImpl.ThreadPool.WakeupWorkerThread: requires a worker that is off the idle list, as `StartWork` hands it one.
- Counters are unbounded: the 32-bit `unsigned int` wrap-around of `cur_thread_num` and the width of `time_t` are not modelled. With the corrected guard, `cur_thread_num` never exceeds `max_thread_num`, so it cannot wrap.
- Thread creation is a request (`startingThreadNum`) followed later by the new thread's start step. This model has no thread-destroy step other than retirement.

## Findings

| source | as written | input that shows it | evidently intended | confidence | as-written member | corrected member |
|---|---|---|---|---|---|---|
| thread_pool.c:77-80 | `CanCreateThread` compares only `cur_thread_num` with the maximum, but a created thread is counted only when it reaches line 55, so a second growth decision can pass before the first new thread has counted itself | `CreateThreadPool(1, 2)` at any time `t0` and its thread starts. A job goes to worker 0 and finishes at `t0 + 2`: the list is empty, `2 > 1` units have passed and `1 < 2`, so a thread is requested. Worker 0 is handed a job again at `t0 + 2` and finishes it at `t0 + 4`, while the first requested thread has still not started: again `2 > 1` and `1 < 2`, so a second thread is requested. Both threads then start: `cur_thread_num = 3 > 2` | growth never takes the pool past `max_thread_num`; the guard also counts threads requested but not yet started (`cur + starting < max`) | not executed; low: needs a new thread's start to lag by more than one time unit | PoolTrace.GrowthOvershootAsWritten | PoolModel.FinishJob |
| thread_pool.c:24 | `PushWorker` links the worker to the old head, then sets `pool->head = NULL` | any push, e.g. the first thread of `CreateThreadPool(1, 1)` going idle: `head` stays NULL. As written, the next `StartWork` then calls `PopWorker` on NULL and dereferences it at line 29. With `GetWorker`'s empty-list check added, it returns -2 although a worker is idle | `pool->head = worker`, making the worker the new head of the free-list | not executed; high: every push discards the list | PoolModel.PushAsWrittenLosesList | PoolModel.PushKeepsReachable |

=== FILE: policy.dfy ===
/**
 * The pool's guards: the three macros at the top of thread_pool.c, WorkerIdleTimeout, and the
 * two decisions a worker takes after each job (grow the pool, or retire itself).
 * They are pure reads of the pool's fields, so here they take those fields as values.
 */
module Policy {
  import opened Types

  /** WaitWorkerTimeout: the idle list has been found empty for more than one time unit. */
  function WaitWorkerTimeout(now: int, lastEmptyTime: int): (r: bool)
    ensures r <==> now >= lastEmptyTime + 2
    ensures r ==> now > lastEmptyTime
  {
    now - lastEmptyTime > 1
  }

  /** NoThreadInPool: no worker is idle (the list head is NULL). */
  function NoThreadInPool(head: Option<WorkerId>): (r: bool)
    ensures r <==> !head.Some?
  {
    head == None
  }

  /** CanCreateThread as written: compares the counted threads only with the maximum. */
  function CanCreateThread(curThreadNum: nat, maxThreadNum: nat): (r: bool)
    ensures r <==> curThreadNum + 1 <= maxThreadNum
  {
    curThreadNum < maxThreadNum
  }

  /**
   * CanCreateThread as intended: a thread that has been requested but has not yet counted
   * itself in (line 55) already takes a place below the maximum.
   */
  function CanReserveThread(curThreadNum: nat, startingThreadNum: nat, maxThreadNum: nat): (r: bool)
    ensures r <==> curThreadNum + startingThreadNum + 1 <= maxThreadNum
    ensures r ==> CanCreateThread(curThreadNum, maxThreadNum)
    ensures startingThreadNum == 0 ==> (r <==> CanCreateThread(curThreadNum, maxThreadNum))
  {
    curThreadNum + startingThreadNum < maxThreadNum
  }

  /**
   * WorkerIdleTimeout: the worker at the head of the idle list went idle at `headSleepStart`
   * and has slept for more than one time unit; false when the list is empty.
   */
  function WorkerIdleTimeout(headSleepStart: Option<int>, now: int): (r: bool)
    ensures r <==> headSleepStart.Some? && headSleepStart.value + 1 < now
  {
    match headSleepStart
    case None => false
    case Some(t) => now > t + 1
  }

  /**
   * The growth test after a job (line 77), with the corrected capacity guard:
   * a new thread is requested only on sustained emptiness and only while it fits below the maximum.
   */
  function ShouldGrow(noThread: bool, now: int, lastEmptyTime: int,
                      curThreadNum: nat, startingThreadNum: nat, maxThreadNum: nat): (r: bool)
    ensures r <==> noThread && now - lastEmptyTime > 1 && curThreadNum + startingThreadNum < maxThreadNum
    ensures r ==> curThreadNum + startingThreadNum + 1 <= maxThreadNum
  {
    WaitWorkerTimeout(now, lastEmptyTime) && noThread
      && CanReserveThread(curThreadNum, startingThreadNum, maxThreadNum)
  }

  /** The growth test of line 77 exactly as written, with CanCreateThread. */
  function ShouldGrowAsWritten(noThread: bool, now: int, lastEmptyTime: int,
                               curThreadNum: nat, maxThreadNum: nat): (r: bool)
    ensures r <==> noThread && now - lastEmptyTime > 1 && curThreadNum < maxThreadNum
  {
    WaitWorkerTimeout(now, lastEmptyTime) && noThread && CanCreateThread(curThreadNum, maxThreadNum)
  }

  /**
   * The retirement test (lines 82-95): stay when nobody is idle, stay at or below the minimum,
   * otherwise leave when the head idle worker has timed out.
   */
  function ShouldRetire(headSleepStart: Option<int>, curThreadNum: nat, minThreadNum: nat, now: int): (r: bool)
    ensures r <==> headSleepStart.Some? && curThreadNum > minThreadNum && headSleepStart.value + 1 < now
    ensures r ==> curThreadNum - 1 >= minThreadNum
  {
    if headSleepStart == None then false
    else if curThreadNum <= minThreadNum then false
    else WorkerIdleTimeout(headSleepStart, now)
  }

  /**
   * The two growth guards of line 77 compared: the corrected one only ever refuses where the
   * one as written grants, the two agree while no thread is pending, and they differ exactly
   * when pending threads fill the room that `CanCreateThread` (line 6) still sees.
   */
  lemma GuardsCompared(noThread: bool, now: int, lastEmptyTime: int,
                       curThreadNum: nat, startingThreadNum: nat, maxThreadNum: nat)
    ensures ShouldGrow(noThread, now, lastEmptyTime, curThreadNum, startingThreadNum, maxThreadNum)
            ==> ShouldGrowAsWritten(noThread, now, lastEmptyTime, curThreadNum, maxThreadNum)
    ensures startingThreadNum == 0 ==>
            ShouldGrow(noThread, now, lastEmptyTime, curThreadNum, startingThreadNum, maxThreadNum)
            == ShouldGrowAsWritten(noThread, now, lastEmptyTime, curThreadNum, maxThreadNum)
    ensures (ShouldGrowAsWritten(noThread, now, lastEmptyTime, curThreadNum, maxThreadNum)
             && !ShouldGrow(noThread, now, lastEmptyTime, curThreadNum, startingThreadNum, maxThreadNum))
            <==> (noThread && WaitWorkerTimeout(now, lastEmptyTime)
                  && CanCreateThread(curThreadNum, maxThreadNum)
                  && !CanReserveThread(curThreadNum, startingThreadNum, maxThreadNum))
  {
  }

  /** Both timeouts are monotone in time: once passed, they stay passed. */
  lemma TimeoutsMonotone(headSleepStart: Option<int>, lastEmptyTime: int, now: int, later: int)
    requires now <= later
    ensures WaitWorkerTimeout(now, lastEmptyTime) ==> WaitWorkerTimeout(later, lastEmptyTime)
    ensures WorkerIdleTimeout(headSleepStart, now) ==> WorkerIdleTimeout(headSleepStart, later)
  {
  }

  /** After a job the worker never both grows the pool and retires: growth needs an empty idle list. */
  lemma GrowAndRetireExclusive(headSleepStart: Option<int>, now: int, lastEmptyTime: int,
                               curThreadNum: nat, startingThreadNum: nat, minThreadNum: nat, maxThreadNum: nat)
    ensures !(ShouldGrow(headSleepStart == None, now, lastEmptyTime, curThreadNum, startingThreadNum, maxThreadNum)
              && ShouldRetire(headSleepStart, curThreadNum, minThreadNum, now))
  {
  }
}

=== FILE: pool_model.dfy ===
/**
 * The pool's bookkeeping as a sequential state machine. Every region that thread_pool.c runs
 * under a lock is one step function here; threads are worker ids; `now` is a parameter.
 *
 * `idle` is the idle free-list as a stack (idle[0] is `head`); the `next` links of the
 * workers on it spell out the same list, which Inv and ChainIsIdle make precise.
 */
module PoolModel {
  import opened Types
  import Policy

  /**
   * struct ThreadPool plus the workers alive in it. `startingThreadNum` counts threads that
   * have been created but have not yet run line 55 (pthread_create has returned, the new
   * thread has not yet taken the pool lock); `nextWorkerId` hands out fresh thread identities.
   */
  datatype Pool = Pool(
    idle: seq<WorkerId>,
    workers: map<WorkerId, Worker>,
    minThreadNum: nat,
    maxThreadNum: nat,
    curThreadNum: nat,
    lastEmptyTime: int,
    startingThreadNum: nat,
    nextWorkerId: nat)

  /** The `head` pointer of a free-list given as a stack. */
  function HeadOf(idle: seq<WorkerId>): Option<WorkerId>
  {
    if idle == [] then None else Some(idle[0])
  }

  /** The `next` pointer the i-th idle worker must hold. */
  function NextOf(idle: seq<WorkerId>, i: nat): Option<WorkerId>
    requires i < |idle|
  {
    if i + 1 < |idle| then Some(idle[i + 1]) else None
  }

  /** The free-list is a proper singly linked list whose links are the workers' `next` fields. */
  ghost predicate IdleLinked(idle: seq<WorkerId>, workers: map<WorkerId, Worker>)
  {
    && (forall i, j :: 0 <= i < j < |idle| ==> idle[i] != idle[j])
    && (forall i :: 0 <= i < |idle| ==> idle[i] in workers)
    && (forall i {:trigger NextOf(idle, i)} :: 0 <= i < |idle| ==> workers[idle[i]].next == NextOf(idle, i))
    && (forall w {:trigger workers[w]} :: w in workers && w !in idle ==> workers[w].next == None)
  }

  /** An idle worker holds no job and is asleep; a busy one holds a job. */
  ghost predicate SlotState(wk: Worker, isIdle: bool)
  {
    if isIdle then wk.func == Null && wk.wakeUp == 0
    else wk.func != Null && (wk.wakeUp == 0 || wk.wakeUp == 1)
  }

  /** The invariant of the pool at every point where nobody holds the pool lock. */
  ghost predicate Inv(s: Pool)
  {
    && IdleLinked(s.idle, s.workers)
    && (forall w {:trigger s.workers[w]} :: w in s.workers ==> w < s.nextWorkerId && SlotState(s.workers[w], w in s.idle))
    && s.minThreadNum <= s.curThreadNum + s.startingThreadNum <= s.maxThreadNum
    && |s.workers| == s.curThreadNum
  }

  /** A worker that has been woken and is running its job (past line 68). */
  predicate Running(s: Pool, w: WorkerId)
  {
    w in s.workers && w !in s.idle && s.workers[w].wakeUp == 0 && s.workers[w].func != Null
  }

  /** A worker handed a job and signalled, not yet past its wait loop. */
  predicate Dispatched(s: Pool, w: WorkerId)
  {
    w in s.workers && w !in s.idle && s.workers[w].wakeUp == 1
  }

  // ---------------------------------------------------------------- the free-list

  /** PushWorker, corrected: prepend the worker (the source sets `head` to NULL). */
  function PushWorker(s: Pool, w: WorkerId): (r: Pool)
    requires w in s.workers
    ensures HeadOf(r.idle) == Some(w) && r.idle == [w] + s.idle
    ensures r.workers.Keys == s.workers.Keys && r.workers[w] == s.workers[w].(next := HeadOf(s.idle))
    ensures forall v :: v in s.workers && v != w ==> r.workers[v] == s.workers[v]
    ensures r == s.(idle := r.idle, workers := r.workers)
  {
    s.(idle := [w] + s.idle,
       workers := s.workers[w := s.workers[w].(next := HeadOf(s.idle))])
  }

  /** PopWorker: detach the head; the new head is its successor, its link is cleared. */
  function PopWorker(s: Pool): (r: Pool)
    requires s.idle != [] && s.idle[0] in s.workers
    ensures r.idle == s.idle[1..]
    ensures r.workers.Keys == s.workers.Keys && r.workers[s.idle[0]] == s.workers[s.idle[0]].(next := None)
    ensures forall v :: v in s.workers && v != s.idle[0] ==> r.workers[v] == s.workers[v]
    ensures r == s.(idle := r.idle, workers := r.workers)
  {
    var w := s.idle[0];
    s.(idle := s.idle[1..], workers := s.workers[w := s.workers[w].(next := None)])
  }

  lemma PushKeepsLinked(s: Pool, w: WorkerId)
    requires IdleLinked(s.idle, s.workers) && w in s.workers && w !in s.idle
    ensures IdleLinked(PushWorker(s, w).idle, PushWorker(s, w).workers)
  {
    var r := PushWorker(s, w);
    forall i | 0 <= i < |r.idle|
      ensures r.idle[i] in r.workers && r.workers[r.idle[i]].next == NextOf(r.idle, i)
    {
      if i > 0 {
        assert r.idle[i] == s.idle[i - 1];
        assert s.workers[s.idle[i - 1]].next == NextOf(s.idle, i - 1);
      }
    }
  }

  lemma PopKeepsLinked(s: Pool)
    requires IdleLinked(s.idle, s.workers) && s.idle != []
    ensures IdleLinked(PopWorker(s).idle, PopWorker(s).workers)
    ensures HeadOf(PopWorker(s).idle) == s.workers[s.idle[0]].next
  {
    assert s.workers[s.idle[0]].next == NextOf(s.idle, 0);
    var r := PopWorker(s);
    forall i | 0 <= i < |r.idle|
      ensures r.idle[i] in r.workers && r.workers[r.idle[i]].next == NextOf(r.idle, i)
    {
      assert r.idle[i] == s.idle[i + 1];
      assert s.workers[s.idle[i + 1]].next == NextOf(s.idle, i + 1);
    }
  }

  /** Pushing a busy worker and popping gives back that worker and the pool as it was. */
  lemma PushPopRoundTrip(s: Pool, w: WorkerId)
    requires IdleLinked(s.idle, s.workers) && w in s.workers && w !in s.idle
    ensures HeadOf(PushWorker(s, w).idle) == Some(w)
    ensures PopWorker(PushWorker(s, w)) == s
  {
    var r := PopWorker(PushWorker(s, w));
    assert r.idle == s.idle;
    assert r.workers == s.workers;
  }

  /** Popping the head and pushing it back restores the pool: reuse is last in, first out. */
  lemma PopPushRoundTrip(s: Pool)
    requires IdleLinked(s.idle, s.workers) && s.idle != []
    ensures PushWorker(PopWorker(s), s.idle[0]) == s
  {
    var w := s.idle[0];
    var r := PushWorker(PopWorker(s), w);
    assert r.idle == s.idle;
    assert s.workers[w].next == NextOf(s.idle, 0) == HeadOf(s.idle[1..]);
    assert r.workers == s.workers;
  }

  /** The list the C code walks: from a head pointer along `next`, at most `fuel` steps. */
  function Chain(workers: map<WorkerId, Worker>, h: Option<WorkerId>, fuel: nat): seq<WorkerId>
    decreases fuel
  {
    if fuel == 0 || h == None || h.value !in workers then []
    else [h.value] + Chain(workers, workers[h.value].next, fuel - 1)
  }

  lemma {:induction false} ChainFrom(idle: seq<WorkerId>, workers: map<WorkerId, Worker>, i: nat)
    requires IdleLinked(idle, workers) && i <= |idle|
    ensures Chain(workers, if i < |idle| then Some(idle[i]) else None, |idle| - i) == idle[i..]
    decreases |idle| - i
  {
    if i < |idle| {
      assert workers[idle[i]].next == NextOf(idle, i);
      ChainFrom(idle, workers, i + 1);
      assert idle[i..] == [idle[i]] + idle[i + 1..];
    }
  }

  /** The stack `idle` is exactly the list reachable from `head` through the `next` links. */
  lemma ChainIsIdle(s: Pool)
    requires IdleLinked(s.idle, s.workers)
    ensures Chain(s.workers, HeadOf(s.idle), |s.idle|) == s.idle
  {
    ChainFrom(s.idle, s.workers, 0);
  }

  /** A push keeps every idle worker reachable: the new head leads through the pushed worker to the old list. */
  lemma PushKeepsReachable(s: Pool, w: WorkerId)
    requires IdleLinked(s.idle, s.workers) && w in s.workers && w !in s.idle
    ensures Chain(PushWorker(s, w).workers, HeadOf(PushWorker(s, w).idle), |s.idle| + 1) == [w] + s.idle
  {
    PushKeepsLinked(s, w);
    ChainIsIdle(PushWorker(s, w));
  }

  /**
   * PushWorker exactly as written (lines 21-25) on the concrete links: the worker is linked to
   * the old head, and then `head` is set to NULL.
   */
  function PushLinksAsWritten(head: Option<WorkerId>, workers: map<WorkerId, Worker>, w: WorkerId)
    : (r: (Option<WorkerId>, map<WorkerId, Worker>))
    requires w in workers
    ensures r.1.Keys == workers.Keys && r.1[w].next == head
    ensures forall v :: v in workers && v != w ==> r.1[v] == workers[v]
  {
    (None, workers[w := workers[w].(next := head)])
  }

  /**
   * As written, a push loses the free-list: before it the whole idle list hangs off `head`;
   * after it the pushed worker still leads to that list, yet nothing is reachable from `head`.
   */
  lemma PushAsWrittenLosesList(s: Pool, w: WorkerId)
    requires IdleLinked(s.idle, s.workers) && w in s.workers && w !in s.idle
    ensures Chain(s.workers, HeadOf(s.idle), |s.idle|) == s.idle
    ensures var (h, ws) := PushLinksAsWritten(HeadOf(s.idle), s.workers, w);
            && Chain(ws, Some(w), |s.idle| + 1) == [w] + s.idle
            && Chain(ws, h, |s.idle| + 1) == []
  {
    ChainIsIdle(s);
    PushKeepsReachable(s, w);
    assert PushLinksAsWritten(HeadOf(s.idle), s.workers, w).1 == PushWorker(s, w).workers;
  }

  // ---------------------------------------------------------------- dispatch

  /** GetWorker, corrected: returns None instead of popping an empty list (lines 113-134). */
  function GetWorker(s: Pool, func: Ptr, arg: Ptr, now: int): (r: (Pool, Option<WorkerId>))
    requires s.idle != [] ==> s.idle[0] in s.workers
    ensures r.1 == HeadOf(s.idle)
    ensures r.0.idle == if s.idle == [] then [] else s.idle[1..]
    ensures r.0.lastEmptyTime == if |s.idle| <= 1 then now else s.lastEmptyTime
    ensures r.0.workers.Keys == s.workers.Keys
    ensures r.1.Some? ==> r.0.workers[r.1.value] == s.workers[r.1.value].(next := None, func := func, arg := arg)
    ensures forall v :: v in s.workers && Some(v) != r.1 ==> r.0.workers[v] == s.workers[v]
    ensures r.0.curThreadNum == s.curThreadNum && r.0.startingThreadNum == s.startingThreadNum
    ensures r.0.minThreadNum == s.minThreadNum && r.0.maxThreadNum == s.maxThreadNum
    ensures r.0.nextWorkerId == s.nextWorkerId
  {
    var s1 := if s.idle == [] then s.(lastEmptyTime := now) else s;
    if s1.idle == [] then
      (s1, None)
    else
      var w := s1.idle[0];
      var s2 := PopWorker(s1);
      var s3 := if s2.idle == [] then s2.(lastEmptyTime := now) else s2;
      (s3.(workers := s3.workers[w := s3.workers[w].(func := func, arg := arg)]), Some(w))
  }

  /** WakeupWorkerThread: raise the worker's wake flag (lines 136-143). */
  function WakeupWorkerThread(s: Pool, w: WorkerId): (r: Pool)
    requires w in s.workers
    ensures r.workers.Keys == s.workers.Keys && r.workers[w] == s.workers[w].(wakeUp := 1)
    ensures forall v :: v in s.workers && v != w ==> r.workers[v] == s.workers[v]
    ensures r == s.(workers := r.workers)
  {
    s.(workers := s.workers[w := s.workers[w].(wakeUp := 1)])
  }

  /**
   * StartWork (lines 145-166): -1 for a NULL job and no change, -2 when no worker is idle,
   * otherwise 0 with the former head woken and holding the job. It never creates a thread.
   */
  function StartWork(s: Pool, func: Ptr, arg: Ptr, now: int): (r: (Pool, int))
    requires s.idle != [] ==> s.idle[0] in s.workers
    ensures func == Null ==> r == (s, -1)
    ensures func != Null && s.idle == [] ==> r == (s.(lastEmptyTime := now), -2)
    ensures r.0.workers.Keys == s.workers.Keys
    ensures func != Null && s.idle != [] ==>
      && r.1 == 0 && r.0.idle == s.idle[1..]
      && r.0.workers[s.idle[0]] == s.workers[s.idle[0]].(next := None, wakeUp := 1, func := func, arg := arg)
      && r.0.lastEmptyTime == (if |s.idle| == 1 then now else s.lastEmptyTime)
      && (forall v :: v in s.workers && v != s.idle[0] ==> r.0.workers[v] == s.workers[v])
    ensures r.0.nextWorkerId == s.nextWorkerId
    ensures r.0.curThreadNum == s.curThreadNum && r.0.startingThreadNum == s.startingThreadNum
    ensures r.0.minThreadNum == s.minThreadNum && r.0.maxThreadNum == s.maxThreadNum
  {
    if func == Null then
      (s, -1)
    else
      var (s1, worker) := GetWorker(s, func, arg, now);
      if worker == None then (s1, -2)
      else (WakeupWorkerThread(s1, worker.value), 0)
  }

  // ---------------------------------------------------------------- the worker's own loop

  /** Set the worker's idle timestamp (line 59). */
  function SetSleepStart(s: Pool, w: WorkerId, now: int): (r: Pool)
    requires w in s.workers
    ensures r.workers.Keys == s.workers.Keys && r.workers[w] == s.workers[w].(sleepStartTime := now)
    ensures forall v :: v in s.workers && v != w ==> r.workers[v] == s.workers[v]
    ensures r == s.(workers := r.workers)
  {
    s.(workers := s.workers[w := s.workers[w].(sleepStartTime := now)])
  }

  /**
   * A created thread starts (lines 47-60): InitWorker, count itself in, go idle at `now`.
   * Returns the new worker's id.
   */
  function WorkerStart(s: Pool, now: int): (r: (Pool, WorkerId))
    requires s.startingThreadNum > 0 && s.nextWorkerId !in s.workers
    ensures r.0.curThreadNum == s.curThreadNum + 1 && r.0.startingThreadNum == s.startingThreadNum - 1
    ensures r.1 == s.nextWorkerId && r.0.nextWorkerId == s.nextWorkerId + 1
    ensures r.0.lastEmptyTime == s.lastEmptyTime
    ensures r.0.minThreadNum == s.minThreadNum && r.0.maxThreadNum == s.maxThreadNum
    ensures r.1 !in s.workers && r.0.idle == [r.1] + s.idle && r.0.workers.Keys == s.workers.Keys + {r.1}
    ensures r.0.workers == s.workers[r.1 := FreshWorker.(next := HeadOf(s.idle), sleepStartTime := now)]
  {
    var w := s.nextWorkerId;
    (SetSleepStart(PushWorker(WorkerEnter(s), w), w, now), w)
  }

  /** The part of a thread's start before it goes idle: InitWorker and `cur_thread_num += 1`. */
  function WorkerEnter(s: Pool): (r: Pool)
    requires s.startingThreadNum > 0
    ensures r.workers == s.workers[s.nextWorkerId := FreshWorker] && r.idle == s.idle
    ensures r.curThreadNum == s.curThreadNum + 1 && r.startingThreadNum == s.startingThreadNum - 1
    ensures r.nextWorkerId == s.nextWorkerId + 1
    ensures r.lastEmptyTime == s.lastEmptyTime
    ensures r.minThreadNum == s.minThreadNum && r.maxThreadNum == s.maxThreadNum
  {
    var w := s.nextWorkerId;
    var s1 := s.(nextWorkerId := w + 1, workers := s.workers[w := FreshWorker]);
    s1.(startingThreadNum := s1.startingThreadNum - 1, curThreadNum := s1.curThreadNum + 1)
  }

  /** The woken worker leaves its wait loop and clears its wake flag (lines 62-68). */
  function WorkerWake(s: Pool, w: WorkerId): (r: Pool)
    requires w in s.workers
    ensures r.workers.Keys == s.workers.Keys
    ensures r.workers[w].wakeUp == 0 && r.workers[w].func == s.workers[w].func
    ensures r.workers[w] == s.workers[w].(wakeUp := 0)
    ensures forall v :: v in s.workers && v != w ==> r.workers[v] == s.workers[v]
    ensures r == s.(workers := r.workers)
  {
    s.(workers := s.workers[w := s.workers[w].(wakeUp := 0)])
  }

  /** The sleep timestamp of the head idle worker, as WorkerIdleTimeout reads it. */
  function HeadSleepStart(s: Pool): Option<int>
    requires s.idle != [] ==> s.idle[0] in s.workers
  {
    if s.idle == [] then None else Some(s.workers[s.idle[0]].sleepStartTime)
  }

  /**
   * Lines 70-98 after the growth test has given `grow`: clear the job, request a thread when
   * `grow`, then retire (count out, the thread exits) or go back on the idle list at `now`.
   */
  function AfterJob(s: Pool, w: WorkerId, now: int, grow: bool): Pool
    requires w in s.workers && w !in s.idle
    requires s.idle != [] ==> s.idle[0] in s.workers
  {
    var s1 := ClearJob(s, w);
    var s2 := if grow then s1.(startingThreadNum := s1.startingThreadNum + 1) else s1;
    RetireOrIdle(s2, w, now)
  }

  /** Line 71: the worker drops its finished job. */
  function ClearJob(s: Pool, w: WorkerId): (r: Pool)
    requires w in s.workers
    ensures r.workers.Keys == s.workers.Keys && r.idle == s.idle
    ensures r.workers[w] == s.workers[w].(func := Null)
    ensures forall v :: v in s.workers && v != w ==> r.workers[v] == s.workers[v]
    ensures r == s.(workers := r.workers)
  {
    s.(workers := s.workers[w := s.workers[w].(func := Null)])
  }

  /**
   * Lines 82-98: leave the loop (count out; the thread exits) when ShouldRetire holds,
   * otherwise `continue` back to the top: push itself and record when it went idle.
   */
  function RetireOrIdle(s: Pool, w: WorkerId, now: int): (r: Pool)
    requires w in s.workers && w !in s.idle
    requires s.idle != [] ==> s.idle[0] in s.workers
    ensures w !in r.workers <==>
      s.idle != [] && s.curThreadNum > s.minThreadNum && s.workers[s.idle[0]].sleepStartTime + 1 < now
    ensures w !in r.workers ==>
      r == s.(curThreadNum := s.curThreadNum - 1, workers := r.workers) && r.workers.Keys == s.workers.Keys - {w}
    ensures w in r.workers ==>
      && r == s.(idle := [w] + s.idle, workers := r.workers)
      && r.workers[w] == s.workers[w].(next := HeadOf(s.idle), sleepStartTime := now)
      && r.workers.Keys == s.workers.Keys
    ensures forall v :: v in s.workers && v != w ==> v in r.workers && r.workers[v] == s.workers[v]
  {
    if Policy.ShouldRetire(HeadSleepStart(s), s.curThreadNum, s.minThreadNum, now) then
      s.(curThreadNum := s.curThreadNum - 1, workers := s.workers - {w})
    else
      SetSleepStart(PushWorker(s, w), w, now)
  }

  /**
   * The post-job step with the corrected growth guard. Growth happens exactly on sustained
   * emptiness below the maximum and adds one requested thread; retirement happens exactly when
   * someone else is idle, the pool is above its minimum and the head has idled over one unit.
   */
  function FinishJob(s: Pool, w: WorkerId, now: int): (r: Pool)
    requires w in s.workers && w !in s.idle
    requires s.idle != [] ==> s.idle[0] in s.workers
    ensures r.startingThreadNum == s.startingThreadNum +
      (if s.idle == [] && now - s.lastEmptyTime > 1 && s.curThreadNum + s.startingThreadNum < s.maxThreadNum then 1 else 0)
    ensures w !in r.workers <==>
      s.idle != [] && s.curThreadNum > s.minThreadNum && s.workers[s.idle[0]].sleepStartTime + 1 < now
    ensures r.curThreadNum == if w in r.workers then s.curThreadNum else s.curThreadNum - 1
    ensures s.curThreadNum + s.startingThreadNum <= s.maxThreadNum ==>
      r.curThreadNum + r.startingThreadNum <= s.maxThreadNum
    ensures s.minThreadNum <= s.curThreadNum + s.startingThreadNum ==>
      s.minThreadNum <= r.curThreadNum + r.startingThreadNum
    ensures w in r.workers ==> r.idle == [w] + s.idle && r.workers[w].func == Null && r.workers[w].sleepStartTime == now
    ensures w in r.workers ==> r.workers[w] == s.workers[w].(func := Null, next := HeadOf(s.idle), sleepStartTime := now)
    ensures w !in r.workers ==> r.idle == s.idle
    ensures r.workers.Keys == if w in r.workers then s.workers.Keys else s.workers.Keys - {w}
    ensures forall v :: v in s.workers && v != w ==> v in r.workers && r.workers[v] == s.workers[v]
    ensures r.lastEmptyTime == s.lastEmptyTime && r.nextWorkerId == s.nextWorkerId
    ensures r.minThreadNum == s.minThreadNum && r.maxThreadNum == s.maxThreadNum
  {
    AfterJob(s, w, now, Policy.ShouldGrow(s.idle == [], now, s.lastEmptyTime,
                                          s.curThreadNum, s.startingThreadNum, s.maxThreadNum))
  }

  /** The post-job step exactly as written: the growth guard ignores threads not yet started. */
  function FinishJobAsWritten(s: Pool, w: WorkerId, now: int): (r: Pool)
    requires w in s.workers && w !in s.idle
    requires s.idle != [] ==> s.idle[0] in s.workers
    ensures r.startingThreadNum == s.startingThreadNum +
      (if s.idle == [] && now - s.lastEmptyTime > 1 && s.curThreadNum < s.maxThreadNum then 1 else 0)
    ensures r == FinishJob(s, w, now).(startingThreadNum := r.startingThreadNum)
  {
    AfterJob(s, w, now, Policy.ShouldGrowAsWritten(s.idle == [], now, s.lastEmptyTime,
                                                   s.curThreadNum, s.maxThreadNum))
  }

  // ---------------------------------------------------------------- creation

  /**
   * CreateThreadPool (lines 168-196): empty idle list, no counted thread, `lastEmptyTime` now,
   * the given bounds, and `minThreadNum` thread creations requested.
   */
  function CreateThreadPool(minThreadNum: nat, maxThreadNum: nat, now: int): (r: Pool)
    requires minThreadNum <= maxThreadNum
    ensures r.idle == [] && r.workers == map[] && r.curThreadNum == 0 && r.lastEmptyTime == now
    ensures r.minThreadNum == minThreadNum && r.maxThreadNum == maxThreadNum
    ensures r.startingThreadNum == minThreadNum
    ensures Inv(r)
  {
    Pool([], map[], minThreadNum, maxThreadNum, 0, now, minThreadNum, 0)
  }

  // ---------------------------------------------------------------- the invariant is kept

  /** A worker on the idle list never holds a job, so it is never also the dispatched one. */
  lemma IdleHoldsNoJob(s: Pool, w: WorkerId)
    requires Inv(s) && w in s.idle
    ensures w in s.workers && s.workers[w].func == Null && !Dispatched(s, w)
  {
    var i :| 0 <= i < |s.idle| && s.idle[i] == w;
  }

  /**
   * NoThreadInPool (line 5) reads only `head`, yet on a pool that keeps Inv it says something
   * about every worker: the head is NULL exactly when every live worker is running a job.
   */
  lemma NoThreadMeansAllBusy(s: Pool)
    requires Inv(s)
    ensures Policy.NoThreadInPool(HeadOf(s.idle)) <==> forall w :: w in s.workers ==> s.workers[w].func != Null
  {
    if s.idle != [] {
      var w := s.idle[0];
      assert w in s.workers && SlotState(s.workers[w], w in s.idle);
    } else {
      forall w | w in s.workers ensures s.workers[w].func != Null {
        assert SlotState(s.workers[w], w in s.idle);
      }
    }
  }

  /**
   * WaitWorkerTimeout (line 4) measures from the last time GetWorker saw the list empty: a
   * GetWorker that finds or leaves the list empty at `now` restarts the wait, so the timeout
   * holds at a later time exactly when more than one unit has passed since `now`.
   */
  lemma EmptyingRestartsWait(s: Pool, func: Ptr, arg: Ptr, now: int, later: int)
    requires s.idle != [] ==> s.idle[0] in s.workers
    ensures var r := GetWorker(s, func, arg, now).0;
            r.idle == [] ==> (Policy.WaitWorkerTimeout(later, r.lastEmptyTime) <==> later > now + 1)
    ensures var r := GetWorker(s, func, arg, now).0;
            r.idle != [] ==> r.lastEmptyTime == s.lastEmptyTime
  {
  }

  /**
   * WorkerIdleTimeout (lines 33-44) reads the head's timestamp, and a worker that goes back on
   * the list at `now` becomes that head: at `now` itself nobody times out, and later the
   * timeout holds exactly once more than one unit has passed since `now`.
   */
  lemma JustIdledHeadNotTimedOut(s: Pool, w: WorkerId, now: int, later: int)
    requires w in s.workers && w !in s.idle
    requires s.idle != [] ==> s.idle[0] in s.workers
    ensures var r := RetireOrIdle(s, w, now);
            w in r.workers ==>
              && HeadSleepStart(r) == Some(now)
              && !Policy.WorkerIdleTimeout(HeadSleepStart(r), now)
              && (Policy.WorkerIdleTimeout(HeadSleepStart(r), later) <==> later > now + 1)
  {
  }

  lemma MapRemoveCard(m: map<WorkerId, Worker>, w: WorkerId)
    requires w in m
    ensures |m - {w}| == |m| - 1
  {
    assert (m - {w}).Keys == m.Keys - {w};
  }

  lemma StartWorkKeepsInv(s: Pool, func: Ptr, arg: Ptr, now: int)
    requires Inv(s)
    ensures Inv(StartWork(s, func, arg, now).0)
  {
    if func != Null {
      GetWorkerKeepsInv(s, func, arg, now);
      var (s1, worker) := GetWorker(s, func, arg, now);
      if worker.Some? {
        WakeupKeepsInv(s1, worker.value);
      }
    }
  }

  lemma GetWorkerKeepsInv(s: Pool, func: Ptr, arg: Ptr, now: int)
    requires Inv(s) && func != Null
    ensures Inv(GetWorker(s, func, arg, now).0)
    ensures GetWorker(s, func, arg, now).1.Some? ==> GetWorker(s, func, arg, now).1.value !in GetWorker(s, func, arg, now).0.idle
  {
    if s.idle != [] {
      var w := s.idle[0];
      PopKeepsLinked(s);
      var r := GetWorker(s, func, arg, now).0;
      assert r.idle == PopWorker(s).idle;
      assert w !in r.idle;
      forall v | v in r.workers ensures SlotState(r.workers[v], v in r.idle) {
        if v != w {
          assert v in r.idle <==> v in s.idle;
        }
      }
    }
  }

  lemma WorkerEnterLinked(s: Pool)
    requires Inv(s) && s.startingThreadNum > 0
    ensures s.nextWorkerId !in s.workers && s.nextWorkerId !in WorkerEnter(s).idle
    ensures IdleLinked(WorkerEnter(s).idle, WorkerEnter(s).workers)
  {
    assert s.nextWorkerId !in s.idle;
  }

  lemma WorkerStartKeepsInv(s: Pool, now: int)
    requires Inv(s) && s.startingThreadNum > 0
    ensures s.nextWorkerId !in s.workers
    ensures Inv(WorkerStart(s, now).0)
  {
    WorkerStartLinked(s, now);
    WorkerStartSlots(s, now);
  }

  lemma WorkerStartLinked(s: Pool, now: int)
    requires Inv(s) && s.startingThreadNum > 0
    ensures s.nextWorkerId !in s.workers
    ensures IdleLinked(WorkerStart(s, now).0.idle, WorkerStart(s, now).0.workers)
  {
    WorkerEnterLinked(s);
    PushKeepsLinked(WorkerEnter(s), s.nextWorkerId);
  }

  lemma WorkerStartSlots(s: Pool, now: int)
    requires Inv(s) && s.startingThreadNum > 0 && s.nextWorkerId !in s.workers
    ensures var r := WorkerStart(s, now).0;
            forall v {:trigger r.workers[v]} :: v in r.workers ==> v < r.nextWorkerId && SlotState(r.workers[v], v in r.idle)
  {
    var w := s.nextWorkerId;
    var r := WorkerStart(s, now).0;
    forall v | v in r.workers ensures v < r.nextWorkerId && SlotState(r.workers[v], v in r.idle) {
      if v != w {
        assert v in r.idle <==> v in s.idle;
      }
    }
  }

  lemma WorkerWakeKeepsInv(s: Pool, w: WorkerId)
    requires Inv(s) && Dispatched(s, w)
    ensures Inv(WorkerWake(s, w)) && Running(WorkerWake(s, w), w)
  {
  }

  lemma FinishJobKeepsInv(s: Pool, w: WorkerId, now: int)
    requires Inv(s) && Running(s, w)
    ensures Inv(FinishJob(s, w, now))
  {
    FinishJobLinked(s, w, now);
    FinishJobSlots(s, w, now);
    var r := FinishJob(s, w, now);
    if w !in r.workers {
      MapRemoveCard(s.workers, w);
    }
  }

  lemma FinishJobLinked(s: Pool, w: WorkerId, now: int)
    requires Inv(s) && Running(s, w)
    ensures IdleLinked(FinishJob(s, w, now).idle, FinishJob(s, w, now).workers)
  {
    var r := FinishJob(s, w, now);
    if w in r.workers {
      PushKeepsLinked(s, w);
      var p := PushWorker(s, w);
      SameLinksKeepLinked(p.idle, p.workers, r.workers);
    } else {
      forall i | 0 <= i < |s.idle| ensures s.idle[i] in r.workers {
        assert s.idle[i] != w;
      }
      SameLinksKeepLinked(s.idle, s.workers, r.workers);
    }
  }

  /** The links are all IdleLinked looks at: a map with the same `next` fields is as well linked. */
  lemma SameLinksKeepLinked(idle: seq<WorkerId>, a: map<WorkerId, Worker>, b: map<WorkerId, Worker>)
    requires IdleLinked(idle, a)
    requires forall i :: 0 <= i < |idle| ==> idle[i] in b
    requires forall v {:trigger b[v]} :: v in b ==> v in a && b[v].next == a[v].next
    ensures IdleLinked(idle, b)
  {
    forall i | 0 <= i < |idle| ensures b[idle[i]].next == NextOf(idle, i) {
      assert a[idle[i]].next == NextOf(idle, i);
    }
  }

  lemma FinishJobSlots(s: Pool, w: WorkerId, now: int)
    requires Inv(s) && Running(s, w)
    ensures var r := FinishJob(s, w, now);
            forall v {:trigger r.workers[v]} :: v in r.workers ==> v < r.nextWorkerId && SlotState(r.workers[v], v in r.idle)
  {
    var r := FinishJob(s, w, now);
    forall v | v in r.workers ensures v < r.nextWorkerId && SlotState(r.workers[v], v in r.idle) {
      if v != w {
        assert v in r.idle <==> v in s.idle;
      }
    }
  }

  /** Changing a worker's job fields leaves the free-list links as they were. */
  lemma ClearJobKeepsLinked(idle: seq<WorkerId>, workers: map<WorkerId, Worker>, w: WorkerId)
    requires IdleLinked(idle, workers) && w in workers
    ensures IdleLinked(idle, workers[w := workers[w].(func := Null)])
  {
  }

  lemma WakeupKeepsInv(s: Pool, w: WorkerId)
    requires Inv(s) && w in s.workers && w !in s.idle
    ensures Inv(WakeupWorkerThread(s, w))
  {
  }

  /** WakeupWorkerThread and StartWork hand the submitted job to a worker that is no longer idle. */
  lemma JobHandOff(s: Pool, func: Ptr, arg: Ptr, now: int, later: int)
    requires Inv(s) && func != Null && s.idle != []
    ensures var (s1, code) := StartWork(s, func, arg, now);
            var w := s.idle[0];
            && code == 0 && Dispatched(s1, w)
            && s1.workers[w].func == func && s1.workers[w].arg == arg
            && Running(WorkerWake(s1, w), w)
            && var s3 := FinishJob(WorkerWake(s1, w), w, later);
               w in s3.workers ==> s3.workers[w].func == Null && s3.workers[w].arg == arg
  {
    var w := s.idle[0];
    IdleHoldsNoJob(s, w);
    var s1 := StartWork(s, func, arg, now).0;
    assert w !in s1.idle by {
      assert s1.idle == s.idle[1..];
      forall i | 0 <= i < |s1.idle| ensures s1.idle[i] != w {
        assert s1.idle[i] == s.idle[i + 1];
      }
    }
  }
}

=== FILE: pool_trace.dfy ===
/**
 * Runs of the pool: any interleaving of submissions, thread starts, wake-ups and finished jobs,
 * each one atomic, starting from CreateThreadPool. The invariant, and with it the thread-count
 * bounds, holds after every run. The growth race of the post-job step as written is shown by
 * one such interleaving.
 */
module PoolTrace {
  import opened Types
  import opened PoolModel

  datatype Event =
    | Submit(func: Ptr, arg: Ptr, now: int)  // a caller's StartWork
    | Start(now: int)                        // a created thread enters DoProcess
    | Wake(w: WorkerId)                      // a signalled worker passes its wait loop
    | Finish(w: WorkerId, now: int)          // a running worker's job returns

  /** One atomic step; an event whose thread cannot proceed (not woken, not running) changes nothing. */
  function Step(s: Pool, e: Event): (r: Pool)
    requires Inv(s)
    ensures Inv(r)
    ensures r.minThreadNum == s.minThreadNum && r.maxThreadNum == s.maxThreadNum
  {
    match e
    case Submit(func, arg, now) =>
      StartWorkKeepsInv(s, func, arg, now);
      StartWork(s, func, arg, now).0
    case Start(now) =>
      if s.startingThreadNum > 0 then
        WorkerStartKeepsInv(s, now);
        WorkerStart(s, now).0
      else s
    case Wake(w) =>
      if Dispatched(s, w) then
        WorkerWakeKeepsInv(s, w);
        WorkerWake(s, w)
      else s
    case Finish(w, now) =>
      if Running(s, w) then
        FinishJobKeepsInv(s, w, now);
        FinishJob(s, w, now)
      else s
  }

  /** A run of events; every state along it satisfies the pool invariant. */
  function Run(s: Pool, es: seq<Event>): (r: Pool)
    requires Inv(s)
    ensures Inv(r)
    ensures r.minThreadNum == s.minThreadNum && r.maxThreadNum == s.maxThreadNum
    decreases |es|
  {
    if es == [] then s else Run(Step(s, es[0]), es[1..])
  }

  /**
   * In every state reachable from CreateThreadPool the live threads plus those being started
   * stay within [min, max]; once no start is pending, min <= cur <= max; cur counts the live workers.
   */
  lemma ReachableBounds(minThreadNum: nat, maxThreadNum: nat, now: int, es: seq<Event>)
    requires minThreadNum <= maxThreadNum
    ensures var r := Run(CreateThreadPool(minThreadNum, maxThreadNum, now), es);
            && minThreadNum <= r.curThreadNum + r.startingThreadNum <= maxThreadNum
            && (r.startingThreadNum == 0 ==> minThreadNum <= r.curThreadNum <= maxThreadNum)
            && |r.workers| == r.curThreadNum
            && (forall w :: w in r.idle ==> w in r.workers && r.workers[w].func == Null)
  {
    var r := Run(CreateThreadPool(minThreadNum, maxThreadNum, now), es);
    forall w | w in r.idle ensures w in r.workers && r.workers[w].func == Null {
      IdleHoldsNoJob(r, w);
    }
  }

  /**
   * A pool with min 2 and max 2 whose two threads have started takes two jobs; a third
   * submission finds no idle worker and is refused with -2, creating no thread.
   */
  lemma TwoWorkersThenAtCapacity()
    ensures
      var s0 := CreateThreadPool(2, 2, 0);
      var s1 := WorkerStart(WorkerStart(s0, 0).0, 0).0;
      var (s2, c1) := StartWork(s1, Addr(1), Null, 1);
      var (s3, c2) := StartWork(s2, Addr(2), Null, 1);
      var (s4, c3) := StartWork(s3, Addr(3), Null, 1);
      && c1 == 0 && c2 == 0 && c3 == -2
      && s4.curThreadNum == 2 && s4.startingThreadNum == 0 && s4.idle == []
  {
  }

  /**
   * The common start of the two growth runs: a pool with min 1 and max 2 is created at time t0,
   * its one thread starts, and a job submitted at t0 is handed to worker 0, which empties
   * the idle list and records t0 as the last-empty time.
   */
  function OneBusyWorker(t0: int): (r: Pool)
    ensures r.idle == [] && r.workers.Keys == {0} && Dispatched(r, 0) && r.workers[0].func == Addr(1)
    ensures r.curThreadNum == 1 && r.startingThreadNum == 0 && r.nextWorkerId == 1
    ensures r.minThreadNum == 1 && r.maxThreadNum == 2 && r.lastEmptyTime == t0
  {
    var s1 := WorkerStart(CreateThreadPool(1, 2, t0), t0).0;
    assert s1.idle == [0] && s1.workers.Keys == {0};
    StartWork(s1, Addr(1), Null, t0).0
  }

  /**
   * Worker 0, the only thread and woken with a job, finishes it at time `t`, more than one unit
   * after the list was last found empty, and goes back on the idle list. The post-job step is
   * the one as written when `asWritten`, the corrected one otherwise; either requests a thread
   * when its guard lets it through.
   */
  function FinishAlone(s: Pool, t: int, asWritten: bool): (r: Pool)
    requires s.idle == [] && s.workers.Keys == {0} && Dispatched(s, 0) && s.workers[0].func != Null
    requires t - s.lastEmptyTime > 1 && s.curThreadNum == 1
    ensures r.idle == [0] && r.workers.Keys == {0} && r.workers[0].func == Null
    ensures r.lastEmptyTime == s.lastEmptyTime && r.curThreadNum == 1 && r.nextWorkerId == s.nextWorkerId
    ensures r.minThreadNum == s.minThreadNum && r.maxThreadNum == s.maxThreadNum
    ensures r.startingThreadNum == s.startingThreadNum +
      (if (if asWritten then 1 else 1 + s.startingThreadNum) < s.maxThreadNum then 1 else 0)
  {
    if asWritten then FinishJobAsWritten(WorkerWake(s, 0), 0, t) else FinishJob(WorkerWake(s, 0), 0, t)
  }

  /** FinishAlone at time `t`, after which worker 0 is at once handed a new job at `t`. */
  function FinishThenResubmit(s: Pool, t: int, asWritten: bool): (r: Pool)
    requires s.idle == [] && s.workers.Keys == {0} && Dispatched(s, 0) && s.workers[0].func != Null
    requires t - s.lastEmptyTime > 1 && s.curThreadNum == 1
    ensures r.idle == [] && r.workers.Keys == {0} && Dispatched(r, 0) && r.workers[0].func == Addr(1)
    ensures r.lastEmptyTime == t && r.curThreadNum == 1 && r.nextWorkerId == s.nextWorkerId
    ensures r.minThreadNum == s.minThreadNum && r.maxThreadNum == s.maxThreadNum
    ensures r.startingThreadNum == FinishAlone(s, t, asWritten).startingThreadNum
  {
    StartWork(FinishAlone(s, t, asWritten), Addr(1), Null, t).0
  }

  /**
   * As written: worker 0 grows the pool at t0 + 2, is handed a job again, and at t0 + 4 grows
   * it again because the thread requested at t0 + 2 has not yet counted itself in. Returns the
   * state after the second growth and the state once both requested threads have started:
   * three threads then run under a maximum of two.
   */
  function GrowthOvershootAsWritten(t0: int): (r: (Pool, Pool))
    ensures r.0.curThreadNum == 1 && r.0.startingThreadNum == 2 && r.0.maxThreadNum == 2
    ensures r.1.curThreadNum == 3 && r.1.maxThreadNum == 2
  {
    var s4 := FinishThenResubmit(OneBusyWorker(t0), t0 + 2, true);
    var s5 := FinishAlone(s4, t0 + 4, true);
    (s5, StartBoth(s5, t0 + 4))
  }

  /** Two requested threads beside worker 0 both start at time `t` and count themselves in. */
  function StartBoth(s: Pool, t: int): (r: Pool)
    requires s.startingThreadNum == 2 && s.workers.Keys == {0} && s.nextWorkerId == 1
    ensures r.curThreadNum == s.curThreadNum + 2 && r.startingThreadNum == 0
    ensures r.maxThreadNum == s.maxThreadNum && r.workers.Keys == {0, 1, 2}
  {
    var s6 := WorkerStart(s, t).0;
    assert s6.nextWorkerId == 2 && 2 !in s6.workers;
    WorkerStart(s6, t).0
  }

  /**
   * The same interleaving with the corrected guard: the second growth is refused, and once the
   * one requested thread has started the pool holds two threads and nothing is pending.
   */
  function GrowthRaceCorrected(t0: int): (r: (Pool, Pool))
    ensures r.0.curThreadNum == 1 && r.0.startingThreadNum == 1
    ensures r.1.curThreadNum == 2 && r.1.startingThreadNum == 0 && r.1.maxThreadNum == 2
  {
    var s4 := FinishThenResubmit(OneBusyWorker(t0), t0 + 2, false);
    var s5 := FinishAlone(s4, t0 + 4, false);
    (s5, WorkerStart(s5, t0 + 4).0)
  }
}

=== FILE: thread_pool.dfy ===
/**
 * The pool object of thread_pool.c, updated in place. Its fields are those of struct ThreadPool
 * together with the workers' structs (by id); `head` and the workers' `next` fields form the
 * idle free-list, and the ghost field `idle` is that list as a stack. Each step method is one
 * region the source runs under a lock; it is specified by the PoolModel function it implements
 * and keeps Valid(). The helpers PushWorker, PopWorker, WorkerEnter and RetireOrIdle run inside a
 * step while Valid() is broken, so they are specified by their PoolModel function and keep only
 * ListValid() (or, for RetireOrIdle, the head). CreateOneThread and InitWorker state their own
 * field updates.
 */
module ThreadPoolImpl {
  import opened Types
  import Policy
  import PoolModel

  class ThreadPool {
    var head: Option<WorkerId>
    var workers: map<WorkerId, Worker>
    var minThreadNum: nat
    var maxThreadNum: nat
    var curThreadNum: nat
    var lastEmptyTime: int
    /** Threads created and not yet counted in by their own first locked region. */
    var startingThreadNum: nat
    /** The identity the next started thread receives. */
    var nextWorkerId: nat
    ghost var idle: seq<WorkerId>

    ghost function Abstract(): PoolModel.Pool
      reads this
    {
      PoolModel.Pool(idle, workers, minThreadNum, maxThreadNum, curThreadNum,
                     lastEmptyTime, startingThreadNum, nextWorkerId)
    }

    /** The free-list is well linked and `head` points at its first worker. */
    ghost predicate ListValid()
      reads this
    {
      PoolModel.IdleLinked(idle, workers) && head == PoolModel.HeadOf(idle)
    }

    ghost predicate Valid()
      reads this
    {
      PoolModel.Inv(Abstract()) && head == PoolModel.HeadOf(idle)
    }

    /** CreateThreadPool: set up the pool, then request `minThreads` thread creations. */
    constructor (minThreads: nat, maxThreads: nat, now: int)
      requires minThreads <= maxThreads
      ensures Valid()
      ensures Abstract() == PoolModel.CreateThreadPool(minThreads, maxThreads, now)
    {
      head := None;
      workers := map[];
      minThreadNum := minThreads;
      maxThreadNum := maxThreads;
      curThreadNum := 0;
      lastEmptyTime := now;
      startingThreadNum := 0;
      nextWorkerId := 0;
      idle := [];
      new;
      var remaining: nat := minThreads;
      while remaining > 0
        modifies this`startingThreadNum
        invariant remaining <= minThreads
        invariant startingThreadNum == minThreads - remaining
        invariant Abstract() == PoolModel.CreateThreadPool(minThreads, maxThreads, now).(startingThreadNum := startingThreadNum)
      {
        remaining := remaining - 1;
        CreateOneThread();
      }
    }

    /** CreateOneThread: ask for a new thread running DoProcess; it counts itself in when it starts. */
    method CreateOneThread()
      modifies this`startingThreadNum
      ensures startingThreadNum == old(startingThreadNum) + 1
    {
      startingThreadNum := startingThreadNum + 1;
    }

    /** InitWorker: the worker starts unlinked, asleep, without a job. */
    method InitWorker(w: WorkerId)
      modifies this`workers
      ensures workers == old(workers)[w := FreshWorker]
    {
      workers := workers[w := Worker(None, 0, 0, Null, Null)];
    }

    /** PushWorker, corrected to make the worker the new head (the source sets `head` to NULL). */
    method PushWorker(w: WorkerId)
      requires ListValid() && w in workers && w !in idle
      modifies this`head, this`workers, this`idle
      ensures ListValid() && head == Some(w)
      ensures Abstract() == PoolModel.PushWorker(old(Abstract()), w)
    {
      ghost var a := Abstract();
      PoolModel.PushKeepsLinked(a, w);
      workers := workers[w := workers[w].(next := head)];
      head := Some(w);
      idle := [w] + idle;
      assert Abstract() == PoolModel.PushWorker(a, w);
    }

    /** PopWorker: `w` must be the head; `head` moves to its successor and its link is cleared. */
    method PopWorker(w: WorkerId)
      requires ListValid() && head == Some(w) && w in workers
      modifies this`head, this`workers, this`idle
      ensures ListValid() && w in workers && head == old(workers[w].next) && workers[w].next == None
      ensures Abstract() == PoolModel.PopWorker(old(Abstract()))
    {
      ghost var a := Abstract();
      PoolModel.PopKeepsLinked(a);
      head := workers[w].next;
      workers := workers[w := workers[w].(next := None)];
      idle := idle[1..];
      assert Abstract() == PoolModel.PopWorker(a);
    }

    /**
     * GetWorker, corrected to return None on an empty list instead of popping it; records
     * `now` as the last-empty time when the list is empty before or after the pop.
     */
    method GetWorker(func: Ptr, arg: Ptr, now: int) returns (worker: Option<WorkerId>)
      requires Valid() && func != Null
      modifies this`head, this`workers, this`idle, this`lastEmptyTime
      ensures Valid()
      ensures (Abstract(), worker) == PoolModel.GetWorker(old(Abstract()), func, arg, now)
      ensures worker.Some? ==> worker.value in workers && worker.value !in idle
    {
      ghost var a := Abstract();
      PoolModel.GetWorkerKeepsInv(a, func, arg, now);
      if Policy.NoThreadInPool(head) {
        lastEmptyTime := now;
      }
      if head == None {
        return None;
      }
      var w := head.value;
      assert w in workers;
      PopWorker(w);
      if Policy.NoThreadInPool(head) {
        lastEmptyTime := now;
      }
      workers := workers[w := workers[w].(func := func, arg := arg)];
      worker := Some(w);
      assert Abstract() == PoolModel.GetWorker(a, func, arg, now).0;
    }

    /** WakeupWorkerThread: raise the wake flag of a worker taken off the idle list. */
    method WakeupWorkerThread(w: WorkerId)
      requires Valid() && w in workers && w !in idle
      modifies this`workers
      ensures Valid()
      ensures Abstract() == PoolModel.WakeupWorkerThread(old(Abstract()), w)
    {
      ghost var a := Abstract();
      PoolModel.WakeupKeepsInv(a, w);
      workers := workers[w := workers[w].(wakeUp := 1)];
      assert Abstract() == PoolModel.WakeupWorkerThread(a, w);
    }

    /** StartWork: -1 for a NULL job, -2 when no worker is idle, 0 once a worker is woken with the job. */
    method StartWork(func: Ptr, arg: Ptr, now: int) returns (code: int)
      requires Valid()
      modifies this
      ensures Valid()
      ensures (Abstract(), code) == PoolModel.StartWork(old(Abstract()), func, arg, now)
    {
      if func == Null {
        return -1;
      }
      var worker := GetWorker(func, arg, now);
      if worker == None {
        return -2;
      }
      WakeupWorkerThread(worker.value);
      return 0;
    }

    /** DoProcess up to its first wait (lines 47-60): a started thread counts itself in and goes idle. */
    method WorkerStart(now: int) returns (w: WorkerId)
      requires Valid() && startingThreadNum > 0
      modifies this
      ensures Valid()
      ensures (Abstract(), w) == PoolModel.WorkerStart(old(Abstract()), now)
    {
      ghost var a := Abstract();
      PoolModel.WorkerStartKeepsInv(a, now);
      w := WorkerEnter();
      PushWorker(w);
      workers := workers[w := workers[w].(sleepStartTime := now)];
    }

    /** Lines 52-55: InitWorker, then the new thread counts itself in under the pool lock. */
    method WorkerEnter() returns (w: WorkerId)
      requires Valid() && startingThreadNum > 0
      modifies this
      ensures ListValid() && w in workers && w !in idle
      ensures w == old(nextWorkerId) && Abstract() == PoolModel.WorkerEnter(old(Abstract()))
    {
      ghost var a := Abstract();
      PoolModel.WorkerEnterLinked(a);
      w := nextWorkerId;
      nextWorkerId := nextWorkerId + 1;
      InitWorker(w);
      startingThreadNum := startingThreadNum - 1;
      curThreadNum := curThreadNum + 1;
      assert Abstract() == PoolModel.WorkerEnter(a);
    }

    /** DoProcess's wait (lines 62-68): a signalled worker wakes and clears its flag. */
    method WorkerWake(w: WorkerId)
      requires Valid() && PoolModel.Dispatched(Abstract(), w)
      modifies this`workers
      ensures Valid() && PoolModel.Running(Abstract(), w)
      ensures Abstract() == PoolModel.WorkerWake(old(Abstract()), w)
    {
      ghost var a := Abstract();
      PoolModel.WorkerWakeKeepsInv(a, w);
      workers := workers[w := workers[w].(wakeUp := 0)];
      assert Abstract() == PoolModel.WorkerWake(a, w);
    }

    /**
     * DoProcess after a job (lines 70-98): the job (a foreign call) has run; clear it, grow the
     * pool on sustained emptiness below the maximum, then retire or go idle again.
     */
    method FinishJob(w: WorkerId, now: int)
      requires Valid() && PoolModel.Running(Abstract(), w)
      modifies this
      ensures Valid()
      ensures Abstract() == PoolModel.FinishJob(old(Abstract()), w, now)
    {
      ghost var a := Abstract();
      PoolModel.FinishJobKeepsInv(a, w, now);
      PoolModel.ClearJobKeepsLinked(idle, workers, w);
      workers := workers[w := workers[w].(func := Null)];
      assert Abstract() == PoolModel.ClearJob(a, w);
      if Policy.ShouldGrow(Policy.NoThreadInPool(head), now, lastEmptyTime,
                           curThreadNum, startingThreadNum, maxThreadNum) {
        CreateOneThread();
      }
      RetireOrIdle(w, now);
    }

    /** The end of DoProcess's loop (lines 82-98): retire, or go back on the idle list at `now`. */
    method RetireOrIdle(w: WorkerId, now: int)
      requires ListValid() && w in workers && w !in idle
      modifies this
      ensures head == PoolModel.HeadOf(idle)
      ensures Abstract() == PoolModel.RetireOrIdle(old(Abstract()), w, now)
    {
      ghost var a := Abstract();
      var headSleepStart := if head == None then None else Some(workers[head.value].sleepStartTime);
      assert headSleepStart == PoolModel.HeadSleepStart(a);
      if Policy.ShouldRetire(headSleepStart, curThreadNum, minThreadNum, now) {
        curThreadNum := curThreadNum - 1;
        workers := workers - {w};
      } else {
        PushWorker(w);
        workers := workers[w := workers[w].(sleepStartTime := now)];
      }
    }
  }
}

=== FILE: types.dfy ===
/** The records of thread_pool.h: a worker's per-thread state and the values it holds. */
module Types {

  datatype Option<T> = None | Some(value: T)

  /** A worker is named by the thread that owns it. */
  type WorkerId = nat

  /** A C pointer that is either NULL or some address: the job function and its argument. */
  datatype Ptr = Null | Addr(address: nat)

  /**
   * struct ThreadWorker without its condition variable, mutex and pthread id:
   * `next` links the idle free-list, `wakeUp` is the wake flag (1 woken, 0 asleep),
   * `sleepStartTime` is when the worker last went idle, `func`/`arg` the job.
   */
  datatype Worker = Worker(
    next: Option<WorkerId>,
    wakeUp: int,
    sleepStartTime: int,
    func: Ptr,
    arg: Ptr)

  /** The state InitWorker gives a worker: unlinked, asleep, no job, never idle. */
  const FreshWorker: Worker := Worker(None, 0, 0, Null, Null)
}
